=== FILE: README.md ===
# Grid-counter load management and configuration loading, in Dafny

This project models two parts of a charging controller for electric vehicles.

**Grid-counter load management** (module `Counter`, literal cases in `CounterVectors`). The
grid-connection meter ("counter") is the safety authority of the site. The model covers five
pieces:

- the **fault tracker**: an ERROR from the meter starts an error timer; any other level clears it;
- the **phase-imbalance guard**: per phase, the current by which that phase is more loaded than
  the 18 A unbalanced-load limit allows, measured against the phase with the most headroom;
- the **errorcase allocation**: while load management is unavailable, the configured errorcase
  power is split evenly over the three phases at 230 V;
- the **switch-on hysteresis**: a charge point waiting for PV surplus starts its switch-on timer
  when the surplus exceeds the threshold, and reserves its switch-on power on the counter. While
  waiting it holds as long as there is no deficit. A negative surplus cancels the timer and
  releases the reservation;
- the **control-range target**: the midpoint of the configured PV control range.

The implementation of the counter (`control/counter.py`) is not part of this model. Its
behaviour is taken from the cases its tests check (`packages/control/counter_test.py`).
Every tested case is proved as a lemma, except the two allocation cases with load management
available (see "## Left out"). The general rules stated between the test cases are modelling
choices; they are listed below.

**Configuration loading** (module `DataclassFromDict`, properties in
`DataclassFromDictProperties`). This part builds objects from a mapping of constructor
arguments (`packages/dataclass_utils/_dataclass_from_dict.py`). Python reflection is replaced
by explicit data:

- `Ty` is the annotated type: a user class with its argument list and defaults, `dict`,
  a generic `Dict[K, V]`, `List[T]`, `Union`, `NoneType`, an `Enum`, `int`/`str`/`bool`, or no annotation;
- `Value` is the Python value;
- raised exceptions are `Err` results.

Amps and watts are `real`. Timestamps are whole seconds (see "## Left out").

Design choices:

- **The reserved surplus is a ledger.** Starting the timer adds the charge point's switch-on
  power to the counter's `reserved_surplus`; cancelling subtracts it; nothing else changes it.
  In the tests the ledger holds 0 before a start and exactly the charge point's reservation
  before a cancel, so the tests see "becomes 1500" and "becomes 0" (`SingleChargePointLedger`).
- **The reserved amount is not the threshold.** The feed-in-limit cases have threshold 15000
  but reserve 1500, and their messages name 1500. So the amount reserved is a separate
  parameter, the charge point's switch-on power. It is 1500 W for the one-phase charge point of
  the tests.
- **The guard's figure is not subtracted from the headroom here.** Subtracting the tested
  figure [0, 0, 3] from headroom [29, 11, 8] would give [29, 11, 5]. The model states only
  the guard's figure, which is what the tests check. What the allocation does with it is left
  out together with the rest of that branch.
- **Every level other than ERROR clears the error timer.** The tests check only ERROR and
  NO_ERROR. The model treats a WARNING like NO_ERROR; the tests do not decide this case.
- **Cancelling needs a deficit.** A waiting charge point is cancelled only when the surplus is
  negative. This is the simplest rule that fits the tests: -119 and -681 cancel, while 121
  (below the 1500 threshold) and 15001 hold.

## Model

| member | source | states |
|---|---|---|
| Counter.LoadmanagementState | packages/control/counter_test.py:23-44 | the error timer is set exactly when the fault level is ERROR; it keeps a running timer or starts at `now` |
| Counter.TrackFaultsMarksOnset | packages/control/counter_test.py:23-44 | over any sequence of checks the timer is set iff the latest reading is ERROR, and it then holds the time of the first reading of the current ERROR run |
| Counter.LoadmanagementStateIdempotent | packages/control/counter_test.py:23-44 | checking again while ERROR persists does not re-stamp the timer |
| CounterVectors.LoadmanagementStateVectors | packages/control/counter_test.py:23-44 | ERROR with no timer gives timer 1652683252; NO_ERROR gives no timer |
| Counter.UnbalancedLoadExceeding | packages/control/counter_test.py:47-69 | the result is non-negative, is zero on the phase with the most headroom, withholding it brings every phase within 18 A of that phase, and it is all zero when the rule is off |
| Counter.ExceedingIsLeast | packages/control/counter_test.py:47-69 | the guard's figure is the least relief that brings a phase within the limit; a positive figure brings it exactly to the limit |
| Counter.ExceedingZeroIffBalanced | packages/control/counter_test.py:47-53 | nothing is withheld iff every phase is within 18 A of the phase with the most headroom, including export headroom above 32 A |
| CounterVectors.UnbalancedLoadExceedingVectors | packages/control/counter_test.py:47-69 | the six tested headroom vectors give [0,0,0] three times, then [0,0,1], [0,0,3] and [0,6,9] |
| Counter.CurrentsLeftErrorcase | packages/control/counter_test.py:75-94 | without load management all three phases get the same current, and together at 230 V they draw exactly the errorcase power |
| Counter.ErrorcaseIgnoresMeasurements | packages/control/counter_test.py:84-94 | the errorcase allocation does not depend on measured currents or per-phase maxima |
| CounterVectors.ErrorcaseVector | packages/control/counter_test.py:75-94 | 7000 W errorcase power with 55 A measured and 40 A maxima gives 7000/690 A (10.1449...) per phase |
| Counter.SwitchOnThresholdReached | packages/control/counter_test.py:111-156 | the timer starts at `now` and the switch-on power is reserved iff a non-waiting charge point's surplus exceeds the threshold; a waiting one is cancelled and its reservation released iff surplus < 0; otherwise a waiting one is untouched; a non-waiting one below threshold keeps its timer and ledger |
| Counter.LedgerMovesByReservation | packages/control/counter_test.py:133-156 | one evaluation changes the reserved surplus by the charge point's switch-on power, by minus that power, or not at all |
| Counter.StartThenCancelRestoresLedger | packages/control/counter_test.py:111-118 | a start followed by a cancel restores the ledger and leaves no timer |
| Counter.SingleChargePointLedger | packages/control/counter_test.py:111-130 | with one charge point the ledger holds its switch-on power exactly while it waits and 0 otherwise, before and after every evaluation |
| CounterVectors.SwitchOnVectors | packages/control/counter_test.py:111-156 | all eight tested cases, with and without feed-in limit: timers, reserved surplus and messages |
| Counter.ControlRangeOffset | packages/control/counter_test.py:159-180 | the target is equally far from both ends of the control range and lies inside it |
| Counter.ControlRangeOffsetIgnoresPower | packages/control/counter_test.py:159-180 | the target does not depend on the measured grid power |
| CounterVectors.ControlRangeVectors | packages/control/counter_test.py:159-180 | [0,230] gives 115 and [-230,0] gives -115 for every tested grid power |
| DataclassFromDict.InstanceCheck | packages/dataclass_utils/_dataclass_from_dict.py:19-27 | the instance test raises exactly for a `Union` annotation |
| DataclassFromDict.FromDict | packages/dataclass_utils/_dataclass_from_dict.py:10-29 | a value that already has the requested type is returned unchanged; any other value is passed to the constructor; every successful result has the requested type; a `Union` target raises |
| DataclassFromDict.Construct | packages/dataclass_utils/_dataclass_from_dict.py:28-29 | a user class is constructed iff every argument after the receiver resolves, and the object then has that class and one field per such argument, field k being argument k+1 resolved; otherwise the error is that of the first argument that fails; `int`, `str`, `bool`, `NoneType` and `dict`, whose constructors list only the receiver, are called bare and give 0, '', False, None and {}; an Enum, a typing construct or a missing annotation is not constructible; any result is an instance of the type |
| DataclassFromDict.ArgValues | packages/dataclass_utils/_dataclass_from_dict.py:28-29 | arguments are resolved in declared order; the result fails iff some argument fails, and then raises the error of the first failing argument, all earlier ones having resolved |
| DataclassFromDict.ArgValue | packages/dataclass_utils/_dataclass_from_dict.py:32-45 | a key in the mapping wins; otherwise argument i of n uses default d-(n-i) when n-i <= d; otherwise the error names the argument; a non-dict mapping raises |
| DataclassFromDict.DefaultFor | packages/dataclass_utils/_dataclass_from_dict.py:36-44 | Python's index `defaults[-n+i]` exists iff there are defaults and n-i <= d, and is then `defaults[d-(n-i)]` |
| DataclassFromDict.IsOptionalOfDict | packages/dataclass_utils/_dataclass_from_dict.py:65-71 | true exactly for `Union[dict, NoneType]`; can raise only for a two-member Union (for example `Optional[Dict[K, V]]`, whose first member is not a class) |
| DataclassFromDict.EnumConvert | packages/dataclass_utils/_dataclass_from_dict.py:60-61 | a member of the Enum is returned unchanged; any other value yields the first member whose value equals it; it fails iff the value is no member and no member has that value |
| DataclassFromDict.Recurse | packages/dataclass_utils/_dataclass_from_dict.py:48-62 | a `List[T]` value is converted item by item with length and order kept, and succeeds iff every item converts, otherwise raising the error of the first item that fails; a non-list for `List[T]` fails; a dict is passed to the constructor for every target other than `dict`, `Dict[K, V]` and `Optional[dict]`, which keep it; an error from the `Optional[dict]` test is raised; an Enum target converts a non-dict value; anything else is unchanged |
| DataclassFromDict.MapRecurse | packages/dataclass_utils/_dataclass_from_dict.py:49-54 | the items are converted in order, one result per item; the conversion fails iff some item fails, and then raises the error of the first failing item, all earlier ones having converted |
| DataclassFromDictProperties.RecurseIdempotent | packages/dataclass_utils/_dataclass_from_dict.py:48-62 | converting a converted value to the same type again changes nothing |
| DataclassFromDictProperties.EnumValueRoundTrip | packages/dataclass_utils/_dataclass_from_dict.py:60-61 | looking up a member's value gives back that member, unless an earlier member has the same value |
| DataclassFromDictProperties.FirstFailureExample | packages/dataclass_utils/_dataclass_from_dict.py:29-54 | with two missing arguments the error names the first; in a list the first failing item's error is raised |
| DataclassFromDictProperties.BuiltinFromMappingExample | packages/dataclass_utils/_dataclass_from_dict.py:28-29 | a mapping given for `int`, `str` or `bool` yields 0, '' or False; for an Enum it raises |
| DataclassFromDictProperties.GenericDictExample | packages/dataclass_utils/_dataclass_from_dict.py:56-71 | `Dict[K, V]` and `Optional[dict]` keep a dict value; `Optional[Dict[K, V]]` raises |
| DataclassFromDictProperties.DefaultsAlignToTail | packages/dataclass_utils/_dataclass_from_dict.py:36-38 | with d defaults for n arguments, default j belongs to argument n-d+j |
| DataclassFromDictProperties.NoDefaultBeforeTail | packages/dataclass_utils/_dataclass_from_dict.py:36-44 | an argument before the defaulted tail, or any argument when there are no defaults, has no default |
| DataclassFromDictProperties.GivenArgumentIgnoresDefaults | packages/dataclass_utils/_dataclass_from_dict.py:33-38 | a given key's result does not depend on the defaults |
| DataclassFromDictProperties.InstanceReturnedUnchanged | packages/dataclass_utils/_dataclass_from_dict.py:17-21 | an object of the requested class is returned as it is |
| DataclassFromDictProperties.NestedExample | packages/dataclass_utils/_dataclass_from_dict.py:10-62 | a nested mapping builds the nested objects and the list of objects; the missing Enum argument takes its default; `Optional[dict]` stays a dict; an Enum is looked up by value; a missing argument without default raises naming it |

## Left out

- The `_set_current_left` branch with load management available is not modelled. Its tested
  results ([40, 0, 10] and [60, 15, 30]) depend on counter and charge-point state that the
  tests set up elsewhere. This includes the apportionment under the total-power limit.
- The grace period after which a running error timer makes load management unavailable is not
  modelled. The model stops at the timer itself.
- The effects of the fault check on connected charge points (their messages) are not modelled.
- `calc_switch_on_power` is an input: surplus and threshold are parameters. So are the
  feed-in-limit setting, which only affects those two numbers, and the amount a waiting charge
  point reserves. That amount is 1500 W for the tests' one-phase charge point. How it is derived
  from the configuration is not modelled.
- The transition of the charge point's control state is owned by the charge point, not modelled.
- The clock is a parameter `now`. Timestamps are whole seconds, while the source uses float
  seconds (1652683250.0); sub-second parts are lost. No modelled rule depends on them.
- Status messages are tags carrying the amount they name. The message text is not modelled, and
  neither is the "30 Sek." delay string.
- Counter.UnbalancedLoadExceeding: the guard takes no per-phase maximum currents. The tests use
  equal maxima (32 A on every phase), so the rule is only evidenced for that case.
- Counter.UnbalancedLoadExceeding: the `enabled` flag stands for the global unbalanced-load
  setting, and the 18 A limit is a constant rather than a configuration value.
- Amps and watts are exact reals, not IEEE floats; 7000/690 is exact, not 10.1449275362318853.
- The device drivers (SolarEdge battery, Janitza counter, Youless inverter, Tesla battery) are
  not modelled. They are register and HTTP plumbing around network I/O.
- The display-theme configuration and the web-theme type declarations are not modelled. They
  have no behaviour.
- DataclassFromDict.InstanceCheck: an object is an instance of a class only when it was built as
  that class; subclassing is not modelled.
- DataclassFromDict.Construct: for `List[T]` and `Dict[K, V]` Python inspects the constructor of
  the typing alias itself (arguments `origin` and `args`) and fails either while resolving them
  or, when the mapping gives both, when the alias is called; the model reports `NotConstructible` without naming the argument. The constructor body itself is not run:
  an object is its class name and positional arguments.
- DataclassFromDict.Recurse: a `List[T]` target with a value that is not a list is an error. In
  Python, iterating a string or a dict would give its characters or keys.
- DataclassFromDict.EnumConvert: values are compared structurally; Python's cross-type equality
  (`1 == True`) is not modelled.
- Annotated types are finite trees, so a class whose argument is annotated with the class itself
  cannot be expressed. Python may recurse without end on such a class with a mapping default.
- Keyword-only arguments, `*args`/`**kwargs`, mapping keys other than strings, and nested
  `Union`s are not modelled. Any generic `Dict[K, V]` is one type `DictOf`; its key and value types
  play no part.

=== FILE: counter.dfy ===
/**
 Load management of the grid-connection meter ("counter"): the fault tracker, the
 phase-imbalance guard, the fallback allocation used while load management is unavailable,
 the switch-on hysteresis of a charge point waiting for PV surplus, and the target of the
 PV control range.

 Currents are in amps, powers in watts, timestamps in whole seconds. Per-phase figures are
 ordered triples (phase 1, 2, 3).
 */
module Counter {
  import opened Wrappers

  /** Nominal mains voltage of one phase, in volts. */
  const NominalVoltage: real := 230.0

  /** Number of phases of the grid connection. */
  const PhaseCount: real := 3.0

  /** Largest tolerated difference, in amps, between the headroom of the least loaded phase
      and that of any other phase. */
  const UnbalancedLoadLimit: real := 18.0

  /** One figure per phase. */
  type Triple = s: seq<real> | |s| == 3 witness [0.0, 0.0, 0.0]

  /** Severity of the fault reported by the meter's driver. */
  datatype FaultStateLevel = NoError | Warning | Error

  /** The configured limits of a counter. */
  datatype CounterConfig = CounterConfig(
    maxCurrents: Triple,
    maxTotalPower: real,
    maxPowerErrorcase: real)

  // ---------------------------------------------------------------------------
  // Fault tracker
  // ---------------------------------------------------------------------------

  /** The error timer after one load-management check: a fault of level ERROR starts the timer
      at `now` unless it is already running; any other level clears it. */
  function LoadmanagementState(fault: FaultStateLevel, errorTimer: Option<int>, now: int): (timer: Option<int>)
    ensures timer.Some? <==> fault == Error
    ensures timer.Some? ==> timer == errorTimer || (errorTimer.None? && timer.value == now)
  {
    if fault == Error then
      if errorTimer.None? then Some(now) else errorTimer
    else
      None
  }

  /** One reading of the meter's fault level, taken at `time`. */
  datatype Reading = Reading(fault: FaultStateLevel, time: int)

  /** The error timer after checking `readings` in order, starting with no timer. */
  function TrackFaults(readings: seq<Reading>): (timer: Option<int>)
  {
    if |readings| == 0 then None
    else
      var last := readings[|readings| - 1];
      LoadmanagementState(last.fault, TrackFaults(readings[..|readings| - 1]), last.time)
  }

  /** Index of the first reading of the uninterrupted run of ERROR readings that ends the sequence. */
  function ErrorOnset(readings: seq<Reading>): (k: nat)
    requires |readings| > 0 && readings[|readings| - 1].fault == Error
    ensures k < |readings|
    ensures forall j :: k <= j < |readings| ==> readings[j].fault == Error
    ensures k == 0 || readings[k - 1].fault != Error
  {
    var n := |readings|;
    if n == 1 || readings[n - 2].fault != Error then n - 1
    else ErrorOnset(readings[..n - 1])
  }

  /** While the meter keeps reporting ERROR the timer keeps the time at which the fault began;
      it is set exactly when the latest reading is ERROR. */
  lemma {:induction false} TrackFaultsMarksOnset(readings: seq<Reading>)
    ensures TrackFaults(readings).Some? <==> |readings| > 0 && readings[|readings| - 1].fault == Error
    ensures |readings| > 0 && readings[|readings| - 1].fault == Error ==>
              TrackFaults(readings) == Some(readings[ErrorOnset(readings)].time)
  {
    var n := |readings|;
    if n > 1 && readings[n - 1].fault == Error {
      var prefix := readings[..n - 1];
      TrackFaultsMarksOnset(prefix);
      if readings[n - 2].fault == Error {
        assert ErrorOnset(readings) == ErrorOnset(prefix);
        assert prefix[ErrorOnset(prefix)] == readings[ErrorOnset(readings)];
      }
    }
  }

  /** Checking again while the fault persists does not re-stamp the timer. */
  lemma LoadmanagementStateIdempotent(errorTimer: Option<int>, now: int, later: int)
    ensures var t := LoadmanagementState(Error, errorTimer, now);
            LoadmanagementState(Error, t, later) == t
  {
  }

  // ---------------------------------------------------------------------------
  // Phase-imbalance guard
  // ---------------------------------------------------------------------------

  /** The largest of three figures. */
  function MaxOf(h: Triple): (m: real)
    ensures forall i :: 0 <= i < 3 ==> h[i] <= m
    ensures m == h[0] || m == h[1] || m == h[2]
  {
    if h[0] >= h[1] && h[0] >= h[2] then h[0]
    else if h[1] >= h[2] then h[1]
    else h[2]
  }

  /** The current phase `headroom` is short of the allowed imbalance relative to `reference`. */
  function Excess(reference: real, headroom: real): (x: real)
    ensures x >= 0.0
    ensures reference - (headroom + x) <= UnbalancedLoadLimit
  {
    var d := reference - headroom - UnbalancedLoadLimit;
    if d > 0.0 then d else 0.0
  }

  /** Per phase, the current by which that phase is more loaded than the unbalanced-load rule
      allows, measured against the phase with the most headroom. When the rule is disabled
      nothing is withheld. */
  function UnbalancedLoadExceeding(rawCurrentsLeft: Triple, enabled: bool): (exceeding: Triple)
    ensures forall i :: 0 <= i < 3 ==> exceeding[i] >= 0.0
    ensures forall i :: 0 <= i < 3 && rawCurrentsLeft[i] == MaxOf(rawCurrentsLeft) ==> exceeding[i] == 0.0
    ensures enabled ==> forall i :: 0 <= i < 3 ==>
              MaxOf(rawCurrentsLeft) - (rawCurrentsLeft[i] + exceeding[i]) <= UnbalancedLoadLimit
    ensures !enabled ==> exceeding == [0.0, 0.0, 0.0]
  {
    if enabled then
      var m := MaxOf(rawCurrentsLeft);
      [Excess(m, rawCurrentsLeft[0]), Excess(m, rawCurrentsLeft[1]), Excess(m, rawCurrentsLeft[2])]
    else
      [0.0, 0.0, 0.0]
  }

  /** The guard withholds no more than needed: any relief `x` that brings phase `i` within the
      limit is at least the guard's figure, and where the guard withholds something the relief it
      names brings the phase exactly to the limit. */
  lemma ExceedingIsLeast(h: Triple, i: nat, x: real)
    requires i < 3 && 0.0 <= x
    requires MaxOf(h) - (h[i] + x) <= UnbalancedLoadLimit
    ensures UnbalancedLoadExceeding(h, true)[i] <= x
    ensures UnbalancedLoadExceeding(h, true)[i] > 0.0 ==>
              MaxOf(h) - (h[i] + UnbalancedLoadExceeding(h, true)[i]) == UnbalancedLoadLimit
  {
  }

  /** The guard withholds nothing exactly when every phase is within the limit of the phase
      with the most headroom. */
  lemma ExceedingZeroIffBalanced(h: Triple)
    ensures UnbalancedLoadExceeding(h, true) == [0.0, 0.0, 0.0] <==>
            forall i :: 0 <= i < 3 ==> MaxOf(h) - h[i] <= UnbalancedLoadLimit
  {
    var e := UnbalancedLoadExceeding(h, true);
    if forall i :: 0 <= i < 3 ==> MaxOf(h) - h[i] <= UnbalancedLoadLimit {
      assert e[0] == 0.0 && e[1] == 0.0 && e[2] == 0.0;
    }
  }

  // ---------------------------------------------------------------------------
  // Allocation while load management is unavailable
  // ---------------------------------------------------------------------------

  /** The current left per phase when load management is unavailable: the configured errorcase
      power split evenly over the three phases at nominal voltage. Measured currents and
      per-phase maxima do not enter. */
  function CurrentsLeftErrorcase(config: CounterConfig, currents: Triple): (left: Triple)
    ensures left[0] == left[1] == left[2]
    ensures PhaseCount * NominalVoltage * left[0] == config.maxPowerErrorcase
  {
    var perPhase := config.maxPowerErrorcase / (PhaseCount * NominalVoltage);
    [perPhase, perPhase, perPhase]
  }

  /** The fallback allocation ignores live measurements and the per-phase limits: two counters
      that agree on the errorcase power get the same allocation. */
  lemma ErrorcaseIgnoresMeasurements(a: CounterConfig, b: CounterConfig, currentsA: Triple, currentsB: Triple)
    requires a.maxPowerErrorcase == b.maxPowerErrorcase
    ensures CurrentsLeftErrorcase(a, currentsA) == CurrentsLeftErrorcase(b, currentsB)
  {
  }

  // ---------------------------------------------------------------------------
  // Switch-on hysteresis
  // ---------------------------------------------------------------------------

  /** The control states of a charge point that the hysteresis distinguishes. */
  datatype ChargepointState = NoChargingAllowed | SwitchOnDelay | ChargingAllowed

  /** The status messages the hysteresis sets, by kind; the amount is the switch-on power
      the message names. */
  datatype StatusMessage =
    | SwitchOnFallenBelow(amount: real)
    | SwitchOnWaiting
    | SwitchOnNotExceeded(amount: real)

  /** What one evaluation leaves behind: the switch-on timer of the charge point, the surplus
      reserved on the counter, and the message for the charge point (None: not touched). */
  datatype SwitchOnOutcome = SwitchOnOutcome(
    timestamp: Option<int>,
    reservedSurplus: real,
    message: Option<StatusMessage>)

  /** One evaluation of the switch-on hysteresis for a charge point in `state` whose switch-on
      timer is `timestamp`. `surplus` and `threshold` are this cycle's figures for the charge
      point, `switchOnPower` is the amount it reserves while waiting, `reservedSurplus` the
      counter's ledger of reserved surplus. */
  function SwitchOnThresholdReached(
    state: ChargepointState, timestamp: Option<int>, reservedSurplus: real,
    surplus: real, threshold: real, switchOnPower: real, now: int): (out: SwitchOnOutcome)
    // the timer starts, and the amount is reserved, exactly when a charge point that is not
    // waiting sees the surplus exceed the threshold
    ensures (out.timestamp == Some(now) && out.reservedSurplus == reservedSurplus + switchOnPower
             && out.message == Some(SwitchOnWaiting))
            <==> state != SwitchOnDelay && surplus > threshold
    // a waiting charge point is cancelled, and its reservation released, exactly on a deficit
    ensures (out.message == Some(SwitchOnFallenBelow(switchOnPower)))
            <==> state == SwitchOnDelay && surplus < 0.0
    ensures state == SwitchOnDelay && surplus < 0.0 ==>
              out.timestamp.None? && out.reservedSurplus == reservedSurplus - switchOnPower
    // a waiting charge point with no deficit is left exactly as it was
    ensures state == SwitchOnDelay && surplus >= 0.0 ==>
              out == SwitchOnOutcome(timestamp, reservedSurplus, None)
    // a charge point that is not waiting and does not exceed the threshold keeps its timer
    // and reserves nothing
    ensures state != SwitchOnDelay && surplus <= threshold ==>
              out.timestamp == timestamp && out.reservedSurplus == reservedSurplus
              && out.message == Some(SwitchOnNotExceeded(switchOnPower))
  {
    if state == SwitchOnDelay then
      if surplus < 0.0 then
        SwitchOnOutcome(None, reservedSurplus - switchOnPower, Some(SwitchOnFallenBelow(switchOnPower)))
      else
        SwitchOnOutcome(timestamp, reservedSurplus, None)
    else if surplus > threshold then
      SwitchOnOutcome(Some(now), reservedSurplus + switchOnPower, Some(SwitchOnWaiting))
    else
      SwitchOnOutcome(timestamp, reservedSurplus, Some(SwitchOnNotExceeded(switchOnPower)))
  }

  /** The ledger moves by the charge point's own reservation or not at all. */
  lemma LedgerMovesByReservation(
    state: ChargepointState, timestamp: Option<int>, reservedSurplus: real,
    surplus: real, threshold: real, switchOnPower: real, now: int)
    ensures var out := SwitchOnThresholdReached(state, timestamp, reservedSurplus, surplus, threshold, switchOnPower, now);
            out.reservedSurplus - reservedSurplus in {switchOnPower, -switchOnPower, 0.0}
  {
  }

  /** A start followed by a cancel leaves the counter's ledger as it was before the start and
      the charge point without a timer. */
  lemma StartThenCancelRestoresLedger(
    state: ChargepointState, timestamp: Option<int>, reservedSurplus: real,
    surplus1: real, threshold1: real, surplus2: real, threshold2: real,
    switchOnPower: real, now1: int, now2: int)
    requires state != SwitchOnDelay && surplus1 > threshold1
    requires surplus2 < 0.0
    ensures var started := SwitchOnThresholdReached(state, timestamp, reservedSurplus, surplus1, threshold1, switchOnPower, now1);
            var cancelled := SwitchOnThresholdReached(SwitchOnDelay, started.timestamp, started.reservedSurplus,
                                                      surplus2, threshold2, switchOnPower, now2);
            cancelled.reservedSurplus == reservedSurplus && cancelled.timestamp.None?
  {
  }

  /** With a single charge point on the counter the ledger holds that charge point's reservation
      while it waits and nothing otherwise; every evaluation keeps it so. */
  lemma SingleChargePointLedger(
    state: ChargepointState, timestamp: Option<int>, reservedSurplus: real,
    surplus: real, threshold: real, switchOnPower: real, now: int)
    requires reservedSurplus == (if state == SwitchOnDelay then switchOnPower else 0.0)
    ensures var out := SwitchOnThresholdReached(state, timestamp, reservedSurplus, surplus, threshold, switchOnPower, now);
            var waiting := (state == SwitchOnDelay && surplus >= 0.0) || (state != SwitchOnDelay && surplus > threshold);
            out.reservedSurplus == (if waiting then switchOnPower else 0.0)
  {
  }

  // ---------------------------------------------------------------------------
  // Control-range target
  // ---------------------------------------------------------------------------

  /** The configured band of acceptable grid power, in watts. */
  datatype ControlRange = ControlRange(low: real, high: real)

  /** The grid power the PV control aims at: the point of the control range equally far from
      both of its ends, whatever the grid power measured now. */
  function ControlRangeOffset(range: ControlRange, evuPower: real): (offset: real)
    ensures offset - range.low == range.high - offset
    ensures range.low <= range.high ==> range.low <= offset <= range.high
  {
    (range.low + range.high) / 2.0
  }

  /** The target does not depend on the measured grid power. */
  lemma ControlRangeOffsetIgnoresPower(range: ControlRange, p: real, q: real)
    ensures ControlRangeOffset(range, p) == ControlRangeOffset(range, q)
  {
  }
}

=== FILE: counter_vectors.dfy ===
/** The literal cases the counter's tests check, stated about the model. */
module CounterVectors {
  import opened Wrappers
  import opened Counter

  /** The time the tests freeze the clock at. */
  const Now: int := 1652683252

  /** The switch-on timer the waiting charge points of the tests started at. */
  const Started: int := 1652683250

  /** The amount the tested one-phase charge point reserves when its switch-on timer starts. */
  const SwitchOnPower: real := 1500.0

  /** A meter in ERROR with no timer running starts the timer now; NO_ERROR leaves none. */
  lemma LoadmanagementStateVectors()
    ensures LoadmanagementState(Error, None, Now) == Some(1652683252)
    ensures LoadmanagementState(NoError, None, Now) == None
  {
  }

  /** The six headroom vectors of the imbalance guard, with the rule enabled. */
  lemma UnbalancedLoadExceedingVectors()
    ensures UnbalancedLoadExceeding([32.0, 32.0, 15.0], true) == [0.0, 0.0, 0.0]
    ensures UnbalancedLoadExceeding([32.0, 35.0, 18.0], true) == [0.0, 0.0, 0.0]
    ensures UnbalancedLoadExceeding([38.0, 55.0, 39.0], true) == [0.0, 0.0, 0.0]
    ensures UnbalancedLoadExceeding([32.0, 32.0, 13.0], true) == [0.0, 0.0, 1.0]
    ensures UnbalancedLoadExceeding([29.0, 11.0, 8.0], true) == [0.0, 0.0, 3.0]
    ensures UnbalancedLoadExceeding([35.0, 11.0, 8.0], true) == [0.0, 6.0, 9.0]
  {
  }

  /** Without load management, 7000 W errorcase power gives 7000/690 A (10.1449...) on every
      phase, for measured currents of 55 A and per-phase maxima of 40 A. */
  lemma ErrorcaseVector()
    ensures var config := CounterConfig([40.0, 40.0, 40.0], 120.0 * 230.0, 7000.0);
            var left := CurrentsLeftErrorcase(config, [55.0, 55.0, 55.0]);
            && left == [7000.0 / 690.0, 7000.0 / 690.0, 7000.0 / 690.0]
            && 10.1449 < left[0] < 10.1450
  {
  }

  /** The eight switch-on cases: four without and four with feed-in limit (threshold 1500 and
      15000 respectively); the reserved amount is the charge point's switch-on power either way. */
  lemma SwitchOnVectors()
    // threshold fallen below while waiting: timer cleared, reservation released
    ensures SwitchOnThresholdReached(SwitchOnDelay, Some(Started), 1500.0, -119.0, 1500.0, SwitchOnPower, Now)
            == SwitchOnOutcome(None, 0.0, Some(SwitchOnFallenBelow(1500.0)))
    // start the timer
    ensures SwitchOnThresholdReached(NoChargingAllowed, None, 0.0, 1501.0, 1500.0, SwitchOnPower, Now)
            == SwitchOnOutcome(Some(1652683252), 1500.0, Some(SwitchOnWaiting))
    // threshold not reached
    ensures SwitchOnThresholdReached(NoChargingAllowed, None, 0.0, 1499.0, 1500.0, SwitchOnPower, Now)
            == SwitchOnOutcome(None, 0.0, Some(SwitchOnNotExceeded(1500.0)))
    // timer running
    ensures SwitchOnThresholdReached(SwitchOnDelay, Some(Started), 1500.0, 121.0, 1500.0, SwitchOnPower, Now)
            == SwitchOnOutcome(Some(1652683250), 1500.0, None)
    // feed-in limit: threshold fallen below while waiting
    ensures SwitchOnThresholdReached(SwitchOnDelay, Some(Started), 1500.0, -681.0, 15000.0, SwitchOnPower, Now)
            == SwitchOnOutcome(None, 0.0, Some(SwitchOnFallenBelow(1500.0)))
    // feed-in limit: start the timer
    ensures SwitchOnThresholdReached(NoChargingAllowed, None, 0.0, 15001.0, 15000.0, SwitchOnPower, Now)
            == SwitchOnOutcome(Some(1652683252), 1500.0, Some(SwitchOnWaiting))
    // feed-in limit: threshold not reached
    ensures SwitchOnThresholdReached(NoChargingAllowed, None, 0.0, 14999.0, 15000.0, SwitchOnPower, Now)
            == SwitchOnOutcome(None, 0.0, Some(SwitchOnNotExceeded(1500.0)))
    // feed-in limit: timer running
    ensures SwitchOnThresholdReached(SwitchOnDelay, Some(Started), 1500.0, 15001.0, 15000.0, SwitchOnPower, Now)
            == SwitchOnOutcome(Some(1652683250), 1500.0, None)
  {
  }

  /** The target of the control ranges [0, 230] and [-230, 0], for each tested grid power. */
  lemma ControlRangeVectors()
    ensures forall p :: p in {200.0, 290.0, -100.0} ==> ControlRangeOffset(ControlRange(0.0, 230.0), p) == 115.0
    ensures forall p :: p in {-104.0, 80.0, -300.0} ==> ControlRangeOffset(ControlRange(-230.0, 0.0), p) == -115.0
  {
  }
}

=== FILE: dataclass_from_dict.dfy ===
/**
 Construction of configuration objects from a mapping of constructor arguments.

 Python's reflection is replaced by explicit data: a `Ty` describes the annotated type a value
 is converted to (a class with its constructor's argument list and defaults, `dict`, `List[T]`,
 a `Union`, `NoneType`, an `Enum`, a few built-in classes, or no annotation), and a `Value`
 is the Python value being converted. Raised exceptions become `Err`.
 */
module DataclassFromDict {
  import opened Wrappers

  /** An annotated type. */
  datatype Ty =
    | ClassTy(name: string, args: seq<Arg>, defaults: Option<seq<Value>>)
      // a user class; `args` is its constructor's argument list including the receiver at index 0,
      // `defaults` the default values of the last arguments (None when no argument has one)
    | DictTy                                   // the class `dict`
    | DictOf                                   // a generic `Dict[K, V]`: not a class, its origin is `dict`
    | ListOf(elem: Ty)                         // `List[T]`
    | UnionOf(alternatives: seq<Ty>)           // `Union[...]`; `Optional[T]` is `Union[T, NoneType]`
    | NoneTy                                   // `NoneType`
    | EnumTy(name: string, members: seq<EnumMember>)
    | IntTy | StrTy | BoolTy
    | Unannotated                              // the argument carries no annotation

  /** One argument of a constructor and its annotation. */
  datatype Arg = Arg(name: string, annotation: Ty)

  /** One member of an Enum and the value it stands for. */
  datatype EnumMember = EnumMember(name: string, value: Value)

  /** A Python value. `ObjV` is an instance of a user class built from its positional
      constructor arguments. */
  datatype Value =
    | DictV(entries: map<string, Value>)
    | ListV(items: seq<Value>)
    | ObjV(cls: string, fields: seq<Value>)
    | EnumV(enumName: string, member: string)
    | IntV(i: int)
    | StrV(s: string)
    | BoolV(b: bool)
    | NoneV

  /** The exceptions the conversion can raise. */
  datatype ResolveError =
    | MissingArgument(parameter: string)  // neither given nor defaulted
    | NotSubscriptable                    // arguments looked up in something that is not a dict
    | NotConstructible                    // a type whose constructor cannot be called bare
    | NotIterable                         // a `List[T]` argument that is not a list
    | NotAClass                           // `isinstance`/`issubclass` on a typing construct
    | NotAnEnumValue(enumName: string)    // no member of the Enum has this value

  /** Python's `isclass` on the annotated type. */
  predicate IsClass(t: Ty) {
    !(t.DictOf? || t.ListOf? || t.UnionOf? || t.Unannotated?)
  }

  /** The instance test at the top of `dataclass_from_dict`: `isinstance` against the class, the
      generic origin, or the type of a non-class; it raises on a `Union`. */
  function InstanceCheck(t: Ty, v: Value): (r: Result<bool, ResolveError>)
    ensures r.Err? <==> t.UnionOf?
  {
    match t
    case ClassTy(name, _, _) => Ok(v.ObjV? && v.cls == name)
    case DictTy => Ok(v.DictV?)
    case DictOf => Ok(v.DictV?)
    case ListOf(_) => Ok(v.ListV?)
    case UnionOf(_) => Err(NotAClass)
    case NoneTy => Ok(v.NoneV?)
    case EnumTy(name, _) => Ok(v.EnumV? && v.enumName == name)
    case IntTy => Ok(v.IntV? || v.BoolV?)   // a bool is an int in Python
    case StrTy => Ok(v.StrV?)
    case BoolTy => Ok(v.BoolV?)
    case Unannotated => Ok(v.NoneV?)        // `type(None)` is the type of a missing annotation
  }

  /** Python sequence indexing `s[k]`, negative `k` counting from the end; None for IndexError. */
  function PyIndex<T>(s: seq<T>, k: int): Option<T>
  {
    if 0 <= k < |s| then Some(s[k])
    else if -|s| <= k < 0 then Some(s[|s| + k])
    else None
  }

  /** The default for argument `i` of `n`: `defaults[-n + i]`, None when there are no defaults
      or the argument lies before the defaulted tail. */
  function DefaultFor(defaults: Option<seq<Value>>, n: int, i: int): (d: Option<Value>)
    requires 0 <= i < n
    ensures d.Some? <==> defaults.Some? && n - i <= |defaults.value|
    ensures d.Some? ==> d.value == defaults.value[|defaults.value| - (n - i)]
  {
    match defaults
    case None => None
    case Some(ds) => PyIndex(ds, -n + i)
  }

  /** Whether `t` is `Optional[dict]`: a two-member Union of a dict class and NoneType. The
      `issubclass` tests raise on a member that is not a class. */
  function IsOptionalOfDict(t: Ty): (r: Result<bool, ResolveError>)
    ensures r == Ok(true) <==> t == UnionOf([DictTy, NoneTy])
    ensures r.Err? ==> t.UnionOf? && |t.alternatives| == 2
  {
    if t.UnionOf? && |t.alternatives| == 2 then
      if !IsClass(t.alternatives[0]) then Err(NotAClass)
      else if !t.alternatives[0].DictTy? then Ok(false)
      else if !IsClass(t.alternatives[1]) then Err(NotAClass)
      else Ok(t.alternatives[1].NoneTy?)
    else
      Ok(false)
  }

  /** The first member of the Enum whose value is `v`. */
  function FindMember(members: seq<EnumMember>, v: Value): (r: Option<string>)
    ensures r.None? <==> forall k :: 0 <= k < |members| ==> members[k].value != v
    ensures r.Some? ==> exists k :: 0 <= k < |members| && members[k].value == v && members[k].name == r.value
                                    && forall j :: 0 <= j < k ==> members[j].value != v
  {
    if |members| == 0 then None
    else if members[0].value == v then Some(members[0].name)
    else
      var rest := FindMember(members[1..], v);
      assert forall k :: 1 <= k < |members| ==> members[k] == members[1..][k - 1];
      rest
  }

  /** `EnumCls(value)`: a member of the Enum is returned as it is, any other value is looked up
      among the members' values. */
  function EnumConvert(t: Ty, v: Value): (r: Result<Value, ResolveError>)
    requires t.EnumTy?
    ensures r.Ok? ==> r.value.EnumV? && r.value.enumName == t.name
    ensures v.EnumV? && v.enumName == t.name ==> r == Ok(v)
    ensures r.Err? <==> !(v.EnumV? && v.enumName == t.name) && forall k :: 0 <= k < |t.members| ==> t.members[k].value != v
    ensures r.Ok? && !(v.EnumV? && v.enumName == t.name) ==>
              exists k :: 0 <= k < |t.members| && t.members[k].value == v && r.value.member == t.members[k].name
                          && forall j :: 0 <= j < k ==> t.members[j].value != v
  {
    if v.EnumV? && v.enumName == t.name then Ok(v)
    else
      match FindMember(t.members, v)
      case Some(m) => Ok(EnumV(t.name, m))
      case None => Err(NotAnEnumValue(t.name))
  }

  /** `_dataclass_from_dict_recurse`: converts `v` to the annotated type `t`. A `List[T]` value is
      converted item by item, keeping length and order; a dict becomes an object of a class
      annotation, but stays a dict for a `dict`, `Dict[K, V]` or `Optional[dict]` annotation; an Enum
      annotation converts the value; any other value is kept. */
  function Recurse(v: Value, t: Ty): (r: Result<Value, ResolveError>)
    ensures t.ListOf? && r.Ok? ==>
              v.ListV? && r.value.ListV? && |r.value.items| == |v.items|
              && forall k :: 0 <= k < |v.items| ==> Recurse(v.items[k], t.elem) == Ok(r.value.items[k])
    ensures t.ListOf? && v.ListV? ==>
              (r.Ok? <==> forall k :: 0 <= k < |v.items| ==> Recurse(v.items[k], t.elem).Ok?)
    ensures t.ListOf? && v.ListV? && r.Err? ==>
              exists k :: 0 <= k < |v.items| && Recurse(v.items[k], t.elem) == Err(r.error)
                          && forall j :: 0 <= j < k ==> Recurse(v.items[j], t.elem).Ok?
    ensures t.ListOf? && !v.ListV? ==> r == Err(NotIterable)
    ensures v.DictV? && !t.ListOf? && !t.DictTy? && IsOptionalOfDict(t) == Ok(false) ==> r == FromDict(t, v)
    ensures v.DictV? && t.ClassTy? ==> r == FromDict(t, v)
    ensures v.DictV? && (t.DictTy? || t.DictOf? || t == UnionOf([DictTy, NoneTy])) ==> r == Ok(v)
    ensures v.DictV? && IsOptionalOfDict(t).Err? ==> r == Err(IsOptionalOfDict(t).error)
    ensures !v.DictV? && !t.ListOf? && !t.EnumTy? ==> r == Ok(v)
    ensures !v.DictV? && t.EnumTy? ==> r == EnumConvert(t, v)
    decreases t, 4, 0
  {
    if t.ListOf? then
      if v.ListV? then
        match MapRecurse(v.items, t.elem)
        case Ok(xs) => Ok(ListV(xs))
        case Err(e) => Err(e)
      else Err(NotIterable)
    else
      // the `Optional[dict]` test is only reached for a dict value (`and` short-circuits)
      var optionalOfDict := IsOptionalOfDict(t);
      if v.DictV? && optionalOfDict.Err? then Err(optionalOfDict.error)
      else if v.DictV? && !(optionalOfDict.value || t.DictTy?) then FromDict(t, v)
      else if t.EnumTy? then EnumConvert(t, v)
      else Ok(v)
  }

  /** The list comprehension over the items of a `List[T]` value: converts each item to `elem`,
      in order, stopping at the first that raises. */
  function MapRecurse(items: seq<Value>, elem: Ty): (r: Result<seq<Value>, ResolveError>)
    ensures r.Ok? ==> |r.value| == |items|
    ensures r.Ok? ==> forall k :: 0 <= k < |items| ==> Recurse(items[k], elem) == Ok(r.value[k])
    ensures r.Err? <==> exists k :: 0 <= k < |items| && Recurse(items[k], elem).Err?
    ensures r.Err? ==> exists k :: 0 <= k < |items| && Recurse(items[k], elem) == Err(r.error)
                                   && forall j :: 0 <= j < k ==> Recurse(items[j], elem).Ok?
    decreases elem, 5, |items|
  {
    if |items| == 0 then Ok([])
    else
      match Recurse(items[0], elem)
      case Err(e) => Err(e)
      case Ok(x) =>
        match MapRecurse(items[1..], elem)
        case Err(e) =>
          assert exists k :: 0 <= k < |items| && Recurse(items[k], elem) == Err(e)
                             && forall j :: 0 <= j < k ==> Recurse(items[j], elem).Ok? by {
            var k :| 0 <= k < |items[1..]| && Recurse(items[1..][k], elem) == Err(e)
                     && forall j :: 0 <= j < k ==> Recurse(items[1..][j], elem).Ok?;
            assert items[k + 1] == items[1..][k];
            assert forall j :: 1 <= j < k + 1 ==> items[j] == items[1..][j - 1];
          }
          Err(e)
        case Ok(xs) =>
          assert forall k :: 1 <= k < |items| ==> items[k] == items[1..][k - 1];
          Ok([x] + xs)
  }

  /** `dataclass_from_dict`: a value that already has the requested type is returned unchanged;
      otherwise the type's constructor is called with arguments resolved from the mapping `v`.
      A successful result always has the requested type. */
  function FromDict(t: Ty, v: Value): (r: Result<Value, ResolveError>)
    ensures InstanceCheck(t, v) == Ok(true) ==> r == Ok(v)
    ensures InstanceCheck(t, v) == Ok(false) ==> r == Construct(t, v)
    ensures r.Ok? ==> InstanceCheck(t, r.value) == Ok(true)
    ensures t.UnionOf? ==> r.Err?
    decreases t, 3, 0
  {
    match InstanceCheck(t, v)
    case Err(e) => Err(e)
    case Ok(isInstance) =>
      if isInstance then Ok(v) else Construct(t, v)
  }

  /** `cls(*[...])` for the arguments at indices 1 up to the end of the constructor's argument
      list, the receiver at index 0 skipped. The constructors of `int`, `str`, `bool`, `NoneType`
      and `dict` list only the receiver, so these classes are called with no argument and give
      their empty value whatever the mapping holds. Calling an Enum with no value raises, and so
      does calling a typing construct or a missing annotation. */
  function Construct(t: Ty, v: Value): (r: Result<Value, ResolveError>)
    ensures t.ClassTy? ==> (r.Ok? <==> forall j :: 1 <= j < |t.args| ==> ArgValue(t, v, j).Ok?)
    ensures t.ClassTy? && r.Err? ==>
              exists j :: 1 <= j < |t.args| && ArgValue(t, v, j) == Err(r.error)
                          && forall k :: 1 <= k < j ==> ArgValue(t, v, k).Ok?
    ensures t.ClassTy? && r.Ok? ==> r.value.ObjV? && r.value.cls == t.name
    ensures t.ClassTy? && r.Ok? && |t.args| >= 1 ==> |r.value.fields| == |t.args| - 1
    ensures t.ClassTy? && r.Ok? ==>
              forall k :: 0 <= k < |r.value.fields| ==> 1 + k < |t.args| && ArgValue(t, v, 1 + k) == Ok(r.value.fields[k])
    ensures t.IntTy? ==> r == Ok(IntV(0))
    ensures t.StrTy? ==> r == Ok(StrV(""))
    ensures t.BoolTy? ==> r == Ok(BoolV(false))
    ensures t.NoneTy? ==> r == Ok(NoneV)
    ensures t.DictTy? ==> r == Ok(DictV(map[]))
    ensures t.EnumTy? || t.DictOf? || t.ListOf? || t.UnionOf? || t.Unannotated? ==> r == Err(NotConstructible)
    ensures r.Ok? ==> InstanceCheck(t, r.value) == Ok(true)
    decreases t, 2, 0
  {
    match t
    case ClassTy(name, _, _) =>
      (match ArgValues(t, v, 1)
       case Ok(fields) => Ok(ObjV(name, fields))
       case Err(e) =>
         assert exists j :: 1 <= j < |t.args| && ArgValue(t, v, j).Err?;
         Err(e))
    case IntTy => Ok(IntV(0))
    case StrTy => Ok(StrV(""))
    case BoolTy => Ok(BoolV(false))
    case NoneTy => Ok(NoneV)
    case DictTy => Ok(DictV(map[]))
    case _ => Err(NotConstructible)
  }

  /** The constructor arguments at indices `i` up to the end of the argument list, in declared
      order, stopping at the first that cannot be resolved. */
  function ArgValues(t: Ty, v: Value, i: nat): (r: Result<seq<Value>, ResolveError>)
    requires t.ClassTy?
    ensures r.Ok? ==> |r.value| == if i <= |t.args| then |t.args| - i else 0
    ensures r.Ok? ==> forall k :: 0 <= k < |r.value| ==> ArgValue(t, v, i + k) == Ok(r.value[k])
    ensures r.Err? <==> exists j :: i <= j < |t.args| && ArgValue(t, v, j).Err?
    ensures r.Err? ==> exists j :: i <= j < |t.args| && ArgValue(t, v, j) == Err(r.error)
                                   && forall k :: i <= k < j ==> ArgValue(t, v, k).Ok?
    decreases t, 1, |t.args| - i
  {
    if i >= |t.args| then Ok([])
    else
      match ArgValue(t, v, i)
      case Err(e) =>
        assert ArgValue(t, v, i) == Err(e);
        Err(e)
      case Ok(x) =>
        match ArgValues(t, v, i + 1)
        case Err(e) =>
          assert exists j :: i <= j < |t.args| && ArgValue(t, v, j) == Err(e)
                             && forall k :: i <= k < j ==> ArgValue(t, v, k).Ok? by {
            var j :| i + 1 <= j < |t.args| && ArgValue(t, v, j) == Err(e)
                     && forall k :: i + 1 <= k < j ==> ArgValue(t, v, k).Ok?;
            assert forall k :: i <= k < j ==> ArgValue(t, v, k).Ok?;
          }
          Err(e)
        case Ok(xs) =>
          assert forall k :: 1 <= k < |[x] + xs| ==> ([x] + xs)[k] == xs[k - 1];
          Ok([x] + xs)
  }

  /** `_get_argument_value`: the argument at index `i` is taken from the mapping when its name is
      a key there, otherwise from the defaults aligned to the tail of the argument list, and is
      then converted to the argument's annotation; with neither, the error names the argument. */
  function ArgValue(t: Ty, v: Value, i: nat): (r: Result<Value, ResolveError>)
    requires t.ClassTy? && i < |t.args|
    ensures !v.DictV? ==> r == Err(NotSubscriptable)
    ensures v.DictV? && t.args[i].name in v.entries ==>
              r == Recurse(v.entries[t.args[i].name], t.args[i].annotation)
    ensures v.DictV? && t.args[i].name !in v.entries && t.defaults.Some?
              && |t.args| - i <= |t.defaults.value| ==>
              r == Recurse(t.defaults.value[|t.defaults.value| - (|t.args| - i)], t.args[i].annotation)
    ensures v.DictV? && t.args[i].name !in v.entries
              && (t.defaults.None? || |t.args| - i > |t.defaults.value|) ==>
              r == Err(MissingArgument(t.args[i].name))
    decreases t, 0, 0
  {
    var a := t.args[i];
    assert a in t.args;
    if !v.DictV? then Err(NotSubscriptable)
    else if a.name in v.entries then Recurse(v.entries[a.name], a.annotation)
    else
      match DefaultFor(t.defaults, |t.args|, i)
      case Some(d) => Recurse(d, a.annotation)
      case None => Err(MissingArgument(a.name))
  }
}

=== FILE: dataclass_from_dict_properties.dfy ===
/** Properties of the conversion from a mapping that relate several calls. */
module DataclassFromDictProperties {
  import opened Wrappers
  import opened DataclassFromDict

  /** Converting an already converted list again changes nothing. */
  lemma MapRecurseFixed(ws: seq<Value>, elem: Ty)
    requires forall k :: 0 <= k < |ws| ==> Recurse(ws[k], elem) == Ok(ws[k])
    ensures MapRecurse(ws, elem) == Ok(ws)
  {
    var r := MapRecurse(ws, elem);
    assert forall k :: 0 <= k < |ws| ==> r.value[k] == ws[k];
    assert r.value == ws;
  }

  /** Conversion is a projection: a value converted to `t` is left unchanged when converted to
      `t` again, so loading an already loaded configuration is harmless. */
  lemma {:induction false} RecurseIdempotent(v: Value, t: Ty)
    requires Recurse(v, t).Ok?
    ensures Recurse(Recurse(v, t).value, t) == Recurse(v, t)
    decreases t
  {
    var w := Recurse(v, t).value;
    if t.ListOf? {
      forall k | 0 <= k < |w.items|
        ensures Recurse(w.items[k], t.elem) == Ok(w.items[k])
      {
        RecurseIdempotent(v.items[k], t.elem);
      }
      MapRecurseFixed(w.items, t.elem);
    } else if v.DictV? && IsOptionalOfDict(t) == Ok(false) && !t.DictTy? && !t.DictOf? {
      assert InstanceCheck(t, w) == Ok(true);
      assert !w.DictV?;
    }
  }

  /** Looking a member's value up in its Enum gives back that member, provided no member
      defined before it has the same value (Python resolves such aliases to the first). */
  lemma EnumValueRoundTrip(t: Ty, k: nat)
    requires t.EnumTy? && k < |t.members|
    requires !(t.members[k].value.EnumV? && t.members[k].value.enumName == t.name)
    requires forall j :: 0 <= j < k ==> t.members[j].value != t.members[k].value
    ensures EnumConvert(t, t.members[k].value) == Ok(EnumV(t.name, t.members[k].name))
  {
    var r := EnumConvert(t, t.members[k].value);
    var i :| 0 <= i < |t.members| && t.members[i].value == t.members[k].value
             && r.value.member == t.members[i].name
             && forall j :: 0 <= j < i ==> t.members[j].value != t.members[k].value;
    assert i == k;
  }

  /** A generic `Dict[K, V]` keeps a dict value, but `Optional[Dict[K, V]]` raises: `issubclass`
      is not defined on a generic alias. `Optional[dict]` keeps the dict. */
  lemma GenericDictExample(entries: map<string, Value>)
    ensures Recurse(DictV(entries), DictOf) == Ok(DictV(entries))
    ensures Recurse(DictV(entries), UnionOf([DictOf, NoneTy])) == Err(NotAClass)
    ensures Recurse(DictV(entries), UnionOf([DictTy, NoneTy])) == Ok(DictV(entries))
  {
  }

  /** `class C: def __init__(self, x: int, y: int)`. */
  function PairTy(): Ty {
    ClassTy("C", [Arg("self", Unannotated), Arg("x", IntTy), Arg("y", IntTy)], None)
  }

  /** Arguments and list items are resolved left to right and the first failure is raised: an
      empty mapping names `x`, not `y`, and in a list the empty first item decides the error
      although the second item lacks `y` as well. */
  lemma FirstFailureExample()
    ensures FromDict(PairTy(), DictV(map[])) == Err(MissingArgument("x"))
    ensures Recurse(ListV([DictV(map[]), DictV(map["x" := IntV(1)])]), ListOf(PairTy()))
            == Err(MissingArgument("x"))
  {
    var first := DictV(map[]);
    var second := DictV(map["x" := IntV(1)]);
    assert ArgValue(PairTy(), first, 1) == Err(MissingArgument("x"));
    assert ArgValues(PairTy(), first, 1) == Err(MissingArgument("x"));
    assert FromDict(PairTy(), first) == Err(MissingArgument("x"));
    assert Recurse(first, PairTy()) == Err(MissingArgument("x"));
    assert MapRecurse([first, second], PairTy()) == Err(MissingArgument("x"));
  }

  /** A mapping given for an `int`, `str` or `bool` argument yields that class's empty value,
      because its constructor is called with no argument; an Enum cannot be called that way. */
  lemma BuiltinFromMappingExample(entries: map<string, Value>)
    ensures Recurse(DictV(entries), IntTy) == Ok(IntV(0))
    ensures Recurse(DictV(entries), StrTy) == Ok(StrV(""))
    ensures Recurse(DictV(entries), BoolTy) == Ok(BoolV(false))
    ensures Recurse(DictV(entries), ModeTy()) == Err(NotConstructible)
  {
  }

  /** Defaults are aligned to the tail of the argument list: with `d` defaults for `n` arguments,
      the `j`-th default belongs to argument `n - d + j`. */
  lemma DefaultsAlignToTail(ds: seq<Value>, n: nat, j: nat)
    requires |ds| <= n && j < |ds|
    ensures DefaultFor(Some(ds), n, n - |ds| + j) == Some(ds[j])
  {
  }

  /** Arguments before the defaulted tail have no default. */
  lemma NoDefaultBeforeTail(defaults: Option<seq<Value>>, n: nat, i: nat)
    requires i < n
    requires defaults.None? || i < n - |defaults.value|
    ensures DefaultFor(defaults, n, i).None?
  {
  }

  /** A key given in the mapping takes precedence over the default of its argument: the result
      does not depend on the defaults. */
  lemma GivenArgumentIgnoresDefaults(name: string, args: seq<Arg>, d1: Option<seq<Value>>, d2: Option<seq<Value>>,
                                     v: Value, i: nat)
    requires i < |args| && v.DictV? && args[i].name in v.entries
    ensures ArgValue(ClassTy(name, args, d1), v, i) == ArgValue(ClassTy(name, args, d2), v, i)
  {
  }

  /** A value that already has the requested class is returned as it is, whatever its fields. */
  lemma InstanceReturnedUnchanged(name: string, args: seq<Arg>, defaults: Option<seq<Value>>, fields: seq<Value>)
    ensures FromDict(ClassTy(name, args, defaults), ObjV(name, fields)) == Ok(ObjV(name, fields))
  {
  }

  /** `class Inner: def __init__(self, x: int)`. */
  function InnerTy(): Ty {
    ClassTy("Inner", [Arg("self", Unannotated), Arg("x", IntTy)], None)
  }

  /** `class Mode(Enum): PV = "pv"; INSTANT = "instant"`. */
  function ModeTy(): Ty {
    EnumTy("Mode", [EnumMember("PV", StrV("pv")), EnumMember("INSTANT", StrV("instant"))])
  }

  /** `class Outer: def __init__(self, inner: Inner, items: List[Inner], mode: Mode = Mode.PV,
      extra: Optional[dict] = None)`. */
  function OuterTy(): Ty {
    ClassTy("Outer",
            [Arg("self", Unannotated), Arg("inner", InnerTy()), Arg("items", ListOf(InnerTy())),
             Arg("mode", ModeTy()), Arg("extra", UnionOf([DictTy, NoneTy]))],
            Some([EnumV("Mode", "PV"), NoneV]))
  }

  /** A nested configuration: the inner mapping and the list items become objects, the missing
      `mode` takes its default, the `Optional[dict]` argument stays a dict; an Enum argument given
      by value becomes the member; a missing argument without default is reported by name. */
  lemma NestedExample()
    ensures FromDict(OuterTy(), DictV(map["inner" := DictV(map["x" := IntV(1)]),
                                          "items" := ListV([DictV(map["x" := IntV(2)])]),
                                          "extra" := DictV(map[])]))
            == Ok(ObjV("Outer", [ObjV("Inner", [IntV(1)]), ListV([ObjV("Inner", [IntV(2)])]),
                                 EnumV("Mode", "PV"), DictV(map[])]))
    ensures Recurse(StrV("instant"), ModeTy()) == Ok(EnumV("Mode", "INSTANT"))
    ensures Recurse(StrV("eco"), ModeTy()) == Err(NotAnEnumValue("Mode"))
    ensures FromDict(InnerTy(), DictV(map[])) == Err(MissingArgument("x"))
  {
    var one := DictV(map["x" := IntV(1)]);
    var two := DictV(map["x" := IntV(2)]);
    assert ArgValues(InnerTy(), one, 2) == Ok([]);
    assert ArgValue(InnerTy(), one, 1) == Ok(IntV(1));
    assert ArgValues(InnerTy(), one, 1) == Ok([IntV(1)] + []);
    assert [IntV(1)] + [] == [IntV(1)];
    assert Construct(InnerTy(), one) == Ok(ObjV("Inner", [IntV(1)]));
    assert FromDict(InnerTy(), one) == Ok(ObjV("Inner", [IntV(1)]));
    assert ArgValues(InnerTy(), two, 2) == Ok([]);
    assert ArgValue(InnerTy(), two, 1) == Ok(IntV(2));
    assert ArgValues(InnerTy(), two, 1) == Ok([IntV(2)] + []);
    assert [IntV(2)] + [] == [IntV(2)];
    assert Construct(InnerTy(), two) == Ok(ObjV("Inner", [IntV(2)]));
    assert FromDict(InnerTy(), two) == Ok(ObjV("Inner", [IntV(2)]));
    assert Recurse(two, InnerTy()) == Ok(ObjV("Inner", [IntV(2)]));
    assert MapRecurse([two][1..], InnerTy()) == Ok([]);
    assert MapRecurse([two], InnerTy()) == Ok([ObjV("Inner", [IntV(2)])] + []);
    assert [ObjV("Inner", [IntV(2)])] + [] == [ObjV("Inner", [IntV(2)])];

    var v := DictV(map["inner" := one, "items" := ListV([two]), "extra" := DictV(map[])]);
    assert ArgValues(OuterTy(), v, 5) == Ok([]);
    assert ArgValue(OuterTy(), v, 4) == Ok(DictV(map[]));
    assert ArgValue(OuterTy(), v, 3) == Ok(EnumV("Mode", "PV"));
    assert ArgValue(OuterTy(), v, 2) == Ok(ListV([ObjV("Inner", [IntV(2)])]));
    assert ArgValue(OuterTy(), v, 1) == Ok(ObjV("Inner", [IntV(1)]));
    assert ArgValues(OuterTy(), v, 4) == Ok([DictV(map[])] + []);
    assert [DictV(map[])] + [] == [DictV(map[])];
    assert ArgValues(OuterTy(), v, 3) == Ok([EnumV("Mode", "PV")] + [DictV(map[])]);
    assert [EnumV("Mode", "PV")] + [DictV(map[])] == [EnumV("Mode", "PV"), DictV(map[])];
    var items := ListV([ObjV("Inner", [IntV(2)])]);
    assert ArgValues(OuterTy(), v, 2) == Ok([items] + [EnumV("Mode", "PV"), DictV(map[])]);
    assert [items] + [EnumV("Mode", "PV"), DictV(map[])] == [items, EnumV("Mode", "PV"), DictV(map[])];
    var inner := ObjV("Inner", [IntV(1)]);
    assert ArgValues(OuterTy(), v, 1) == Ok([inner] + [items, EnumV("Mode", "PV"), DictV(map[])]);
    assert [inner] + [items, EnumV("Mode", "PV"), DictV(map[])] == [inner, items, EnumV("Mode", "PV"), DictV(map[])];
  }
}

=== FILE: wrappers.dfy ===
/** Optional values and results with an error, used in place of Python's None and exceptions. */
module Wrappers {

  /** A value that may be absent; Python's `None`. */
  datatype Option<+T> = None | Some(value: T)

  /** The outcome of an operation that may raise: a value, or the error it raised. */
  datatype Result<+T, +E> = Ok(value: T) | Err(error: E)
}
